=== FILE: README.md ===
# tkgi-ui portal: store transitions

A Dafny model of the decision logic of the tkgi-ui self-service portal. The
portal keeps a local store of Cluster and Organization rows. These rows are
a cache of what the cluster broker (TKGI) and the application platform (TAS)
report. The model states how each view changes that store in response to the
upstream answers. Every HTTP answer is a parameter of the model: a status
code plus the decoded body, abstracted as a record. Every transition is a
pure function from the store before to the store after. It also returns the
upstream requests the view issued and what the user is shown.

Modules, following `webapp/views.py`:

- `Base`: Option, key sets, distinct keys, the least-key match and
  delete-by-key over sequences.
- `Text`: Python's decimal rendering of an int, its inverse, and lookup of a
  `key: value` line.
- `Records`: the Cluster and Organization rows, the decoded broker document,
  and the owner-scoped lookups (`filter(owner=…).filter(uuid=pk).first()`).
  The Cluster table declares no ordering (`webapp/migrations/0001_initial.py`),
  so `.first()` takes the matching row with the least primary key. The
  Organization table's definition is not part of this model; it is assumed
  to declare no ordering either. The model orders primary keys as numbers.
  A row refers to its owner by the owner's user primary key, as a Django
  foreign key does, so a lookup does not depend on the owner's email.
- `Clusters`: the create payload, cluster creation (`ClusterCreate.form_valid`)
  and cluster deletion (`cluster_delete`).
- `Reconcile`: the refresh (`cluster_refresh`). `Refresh` is the row-by-row
  reference definition. `RefreshLoop` is the view's loop over the queryset
  snapshot, which saves and deletes rows by primary key. The two are proved
  equal.
- `Kubeconfig`: the role-binding step (`create_cluster_role_binding`) and the
  kubeconfig document (`cluster_kubeconfig`).
- `Organizations`: organization creation as written, the creation its status
  checks intend, and organization deletion (`organization_delete`).

The store is a sequence of rows. The database returns the caller's rows in
no particular order, so `RefreshLoop` takes the snapshot it iterates as a
parameter: any sequence holding each of the caller's rows once. The result
is the same for every such order, because it equals `Refresh` whatever the
snapshot; each step touches only the row it visits (`StepOnce`), and the
loop invariant speaks of the set of visited keys.
The random primary key of a new row is a parameter `id`, required to be fresh. The
database's constraints are the invariant `ValidClusters`: unique primary key,
and unique name (`webapp/migrations/0001_initial.py` line 22). A cluster
create requires a name not yet in use. Django's model form checks this before
`form_valid` runs.

Three behaviours of the code are easy to misread:

- Organization creation checks each status code with `Exception(...)` but
  never raises it. So a non-201 answer to the create-organization request does
  not abort anything. Creation fails only when that answer's body has no
  `guid`. The lookup error is then re-raised, so the user sees an unhandled
  error and not a form error. A row is saved whenever the body has a `guid`,
  whatever the status.
- The cleanup of the broker's own binding `pks:<user>-cluster-admin` fails
  when the delete call raises. In Kubernetes that includes the binding being
  absent. The model makes this explicit: the step succeeds only if that
  binding is present after the grant and the delete call goes through.
- A failed list or create of the caller's own binding is logged and passed
  over, and the step still reports success (`GrantFailureStillOk`).

## Model

| member | source | states |
|---|---|---|
| `Clusters.CreatePayload` | webapp/views.py:168-176 | the create request names the cluster, asks for master host `name + "." + base domain` and port 8443, plan "small" and profile "oidc-config" |
| `Clusters.PayloadHostsDistinct` | webapp/views.py:171 | distinct cluster names request distinct master hosts |
| `Clusters.NewCluster` | webapp/views.py:180-190 | a created row takes owner and name from the request and uuid, plan and mirrored status from the broker's answer |
| `Clusters.ClusterCreate` | webapp/views.py:166-195 | one POST is sent; on 202 the store becomes the earlier rows, untouched, followed by exactly one new row (owner = requester, name from the form, uuid and mirrored fields from the answer); on any other status the store is unchanged and field `name` gets "Failed to create cluster" |
| `Clusters.ClusterCreateKeepsValid` | webapp/views.py:180-192 | with a name not yet in use and a fresh primary key, creation keeps primary keys and names unique |
| `Records.ValidClusters` | webapp/migrations/0001_initial.py:21-22 | the table's constraints: unique primary key and unique name (a definition, no contract) |
| `Clusters.ClusterDelete` | webapp/views.py:142-153 | the store is never changed; a lookup miss (absent or another user's) sends no request and shows the not-found error; a hit sends exactly one DELETE, naming the cluster the lookup found, and then 204 redirects to the refresh while any other status shows "Error deleting Cluster pk" |
| `Reconcile.Mirror` | webapp/views.py:117-126 | a 200 answer overwrites the status fields, master host, port and worker count, and sets the master IP to the first listed IP; primary key, name, owner, uuid and plan are kept |
| `Reconcile.MirrorIdempotent` | webapp/views.py:117-126 | mirroring the same answer twice equals mirroring it once |
| `Reconcile.Refresh` | webapp/views.py:110-132 | reference definition: each row is replaced by its fate, in order; its properties are stated by the lemmas below (a definition, no contract) |
| `Reconcile.RefreshKeys` | webapp/views.py:110-132 | a refresh never adds a primary key or name that was not in the store, and it keeps the unique-key and unique-name invariant |
| `Reconcile.RefreshFate` | webapp/views.py:114-130 | another user's row is kept unchanged; a caller's row answered 200 is kept with the broker's fields; a caller's row answered with any other status except 404 is kept unchanged, whatever happens to the other rows |
| `Reconcile.RefreshRemoves` | webapp/views.py:127-128 | a caller's row answered 404 leaves no row with its primary key |
| `Reconcile.RefreshOrigin` | webapp/views.py:111-130 | every row after a refresh is either an unchanged earlier row that is another user's or was answered neither 200 nor 404, or the mirror of a caller's row answered 200, so owners never change |
| `Reconcile.RefreshIdempotent` | webapp/views.py:114-128 | refreshing again against the same answers changes nothing |
| `Reconcile.StepOnce` | webapp/views.py:115-128 | one loop iteration (save on 200, delete by primary key on 404, skip otherwise) reconciles exactly the row it visits |
| `Reconcile.RefreshLoop` | webapp/views.py:110-132 | for a snapshot of the caller's rows in any order, the view's loop produces exactly the store the reference `Refresh` describes, and sends one GET per snapshot row in snapshot order |
| `Reconcile.RefreshAsksOwned` | webapp/views.py:110-114 | the refresh asks the broker about the caller's clusters only, and about every one of them |
| `Reconcile.DeleteThenRefresh` | webapp/views.py:146-148 | after an accepted (204) delete the row is still stored, and the refresh it redirects to removes it once the broker answers 404 |
| `Records.FindCluster` | webapp/views.py:142 | the lookup finds nothing exactly when no row has the caller's user key as owner and uuid = pk; a found row has both and the least primary key among such rows |
| `Records.FindOrganization` | webapp/views.py:297 | the same owner-scoped, least-primary-key lookup for organizations |
| `Records.LookupsIgnoreEmail` | webapp/views.py:142 | two users with the same primary key and different emails find the same clusters and organizations |
| `Records.OwnedBy` | webapp/views.py:111 | the refresh queryset holds exactly the rows whose owner is the caller's user key, with no new primary keys, and keeps primary keys distinct |
| `Records.SaveById` | webapp/views.py:126 | `save()` of an existing row replaces the row with the same primary key and keeps every other row, in place |
| `Base.LeastWhere` | webapp/views.py:33 | `.first()` on an unordered query gives a matching row with the least primary key, and nothing exactly when no row matches |
| `Base.LeastWhereSameMatches` | webapp/views.py:297 | with unique primary keys a lookup depends only on which rows match, not on their order or on the other rows |
| `Kubeconfig.EscapeAt` | webapp/views.py:74 | the escaped email contains no '@', and text without '@' is left as it is |
| `Kubeconfig.EscapeAtAppend` | webapp/views.py:74 | replacing '@' works piece by piece over a concatenation |
| `Kubeconfig.EscapeAtReplaces` | webapp/views.py:74 | each '@' becomes "__" and the text on either side is escaped separately |
| `Kubeconfig.RoleBindingName` | webapp/views.py:74 | the binding name ends in "-cluster-admin" and contains no '@' |
| `Kubeconfig.RoleBindingNameOfAddress` | webapp/views.py:74 | the address `local@domain` gets the binding `local__domain-cluster-admin` |
| `Kubeconfig.RoleBindingNamesCollide` | webapp/views.py:74 | the different addresses `a__b@c` and `a@b__c` get the same binding name |
| `Kubeconfig.LegacyBindingName` | webapp/views.py:99 | the broker's binding for kubeconfig user `u` is `pks:u-cluster-admin` (a definition, no contract) |
| `Kubeconfig.GrantAdmin` | webapp/views.py:82-95 | existing bindings are never changed; only the caller's binding can be added, binding role cluster-admin to subject kind User named by the email; it is added only when no binding of that name exists, and when the calls succeed the binding is then present |
| `Kubeconfig.GrantIdempotent` | webapp/views.py:83-93 | after a successful grant a second grant creates nothing |
| `Kubeconfig.CreateClusterRoleBinding` | webapp/views.py:71-107 | one bind request is sent; the result is True exactly when the bind answered 200 and the delete of `pks:<user>-cluster-admin` succeeded; a non-200 bind changes no binding |
| `Kubeconfig.BindingGrantsAdmin` | webapp/views.py:85-105 | when the list and create calls went through and the caller's binding name is not the broker's `pks:<user>-cluster-admin`, a True result leaves the caller's own binding in the cluster |
| `Kubeconfig.BindingIdempotent` | webapp/views.py:83-105 | when the first step's list and create calls went through and the caller's binding name is not the broker's `pks:<user>-cluster-admin`, a second binding step after a successful one adds no binding |
| `Kubeconfig.OwnBindingDeletedAsBrokers` | webapp/views.py:83-105 | for the address `pks:u` and broker user `u` the two names coincide: the cleanup deletes the binding just created, and the step returns True with no binding for the caller |
| `Kubeconfig.GrantFailureStillOk` | webapp/views.py:94-105 | a failed list or create is passed over: with the bind answered 200 and the broker's binding deleted, the result is True although the caller has no binding |
| `Kubeconfig.CollidingUserGetsNoBinding` | webapp/views.py:74-105 | for colliding addresses, the second user gets True while the binding under its name grants the first user and no binding names the second |
| `Kubeconfig.CreateClusterRoleBindingChecked` | webapp/views.py:71-107 | corrected step: True only when the binding named after the caller grants cluster-admin to the caller; same requests and bindings as written |
| `Kubeconfig.CheckedBindingAgrees` | webapp/views.py:71-107 | the corrected step changes the same bindings as the written one and succeeds exactly when the written one does and the caller holds its binding |
| `Kubeconfig.CheckedBindingFreshGrant` | webapp/views.py:83-105 | when the caller had no binding, the grant went through and the caller's binding name is not the broker's `pks:<user>-cluster-admin`, the corrected and written steps agree |
| `Kubeconfig.ServerField` | webapp/views.py:40 | the document's server is `https://{ip}:{port}` |
| `Kubeconfig.ClusterNameField` | webapp/views.py:41 | the document's cluster entry is named after the cluster |
| `Kubeconfig.CurrentContextField` | webapp/views.py:47 | the document's current-context is the cluster name |
| `Kubeconfig.KubeconfigLines` | webapp/views.py:36-61 | the document is the 25 lines of the template, from "apiVersion: v1" to "      env: null" |
| `Kubeconfig.ClusterKubeconfig` | webapp/views.py:32-69 | a lookup miss redirects with no request and no binding change; a kubeconfig is emitted only for a cluster the caller owns with uuid pk, exactly when the binding step returns True, and it is built from that cluster's IP, port and name; on a hit the document is built from the row the lookup found (the least primary key among the caller's rows with uuid pk), and the binding step's requests and resulting bindings are the reply's |
| `Text.Digits` | webapp/views.py:40 | a non-negative port renders as a non-empty string of decimal digits with no leading zero (a negative one gets a leading "-") |
| `Text.DecimalRoundTrip` | webapp/views.py:40 | the rendered port parses back to the same integer |
| `Text.DecimalInjective` | webapp/views.py:40 | two different ports never render as the same text |
| `Text.FieldValue` | webapp/views.py:36-61 | a field read from the document is the rest of the first line starting with its key, and it is absent exactly when no line starts with it |
| `Organizations.OrganizationCreate` | webapp/views.py:221-287 | exactly these requests, in order: the user search, the platform user creation only when the search answered 200 with zero results, the organization, and the manager role only when the answer carries a `guid`; a `guid` saves exactly one row with owner = requester and uuid = guid, and no `guid` raises with the store unchanged |
| `Organizations.UserCalls` | webapp/views.py:226-245 | the user search always comes first, the platform user is created exactly when the search answered 200 with zero results, and that creation is the only other request |
| `Organizations.StatusesIgnored` | webapp/views.py:226-279 | the store and outcome depend on no status code: the user-search, user-create, organization and role statuses never abort |
| `Organizations.RoleFailureStillSaves` | webapp/views.py:276-282 | a refused manager role (422) still saves the organization and reports success |
| `Organizations.OrganizationCreateChecked` | webapp/views.py:221-287 | corrected creation: a row is saved exactly when the search answered 200, the user creation (if any) 201, the organization 201 with a guid and the role 201, and then the manager role was requested; otherwise the store is unchanged and field `name` gets "Failed to create organization" |
| `Organizations.CheckedRefinesWritten` | webapp/views.py:221-287 | every request the corrected creation saves is saved identically by the creation as written |
| `Organizations.OrganizationDelete` | webapp/views.py:297-310 | the only request ever sent deletes an organization the caller owns; a lookup miss sends nothing, keeps the store and shows the not-found error; a hit sends exactly one DELETE for GUID pk, and then 202 removes exactly the row the lookup found and keeps all others, while any other status keeps the store and shows "Error deleting Organization pk"; distinct keys are kept |
| `Organizations.OrganizationDeleteKeepsOthers` | webapp/views.py:297-305 | whatever the answer, every other (user, GUID) lookup finds the same row before and after the delete |

## Left out

- Token fetches (`get_request_object`, `get_request_object_tas`): the OAuth2 client-credentials exchange is a foreign library plus a network call. It is taken to succeed.
- HTTP requests, JSON decoding and the Kubernetes client: replaced by parameters. These are status codes, decoded bodies, the cluster's ClusterRoleBindings as a map, and booleans for the outcome of the RBAC calls.
- Django rendering, redirects, form handling, `LoginRequiredMixin`, the GET branches and invalid-form branches of the delete views, and the list views (`index`, `cluster`, `organization`): UI plumbing. A view's answer is reduced to a redirect target, an error page message, a form error or a kubeconfig.
- `print` logging, and the statements after `raise` in the organization handler, which never run.
- The kubeconfig server rewrite before the RBAC calls: it only changes how the portal reaches the cluster, which the parameters already abstract.
- `Kubeconfig.KubeconfigLines`: the document is modelled as its list of lines rather than as one newline-joined string.
- `Reconcile.Refresh` and the members about it: require every 200 answer about the caller's clusters to list a master IP (`Answerable`). The view indexes the list without checking and fails with an error otherwise. Other missing-field errors in broker and platform bodies are not modelled either. The one exception is the organization `guid`, whose absence is what aborts creation.
- The master IP of a newly created row: the column's default comes from a later migration that is not part of this model. The model uses the empty string until the first refresh.
- The `pks_version` column: no view reads or writes it.
- Uniqueness of organization names: the Organization table's definition is not part of this model.
- Concurrency and transactions: each view runs to completion on the store it was given.
- `Records.FindCluster` and `Records.FindOrganization`: `uuid` and `pk` are compared as exact text. The columns are `UUIDField`s, so Django parses `pk` first. A malformed `pk` ends in a server error rather than the not-found page. Another spelling of a stored uuid (upper case, no hyphens) matches in Django but not in the model.
- `Kubeconfig.BindingGrantsAdmin`: holds only when the list and create calls went through. The view logs a failed list or create and still returns True (`Kubeconfig.GrantFailureStillOk`). It also needs the caller's binding name to differ from the broker's `pks:<user>-cluster-admin`; otherwise the cleanup deletes the caller's binding (`Kubeconfig.OwnBindingDeletedAsBrokers`).
- `Kubeconfig.BindingIdempotent`: holds only when the first step's list and create calls went through, and the caller's binding name is not the broker's `pks:<user>-cluster-admin`, for the same reasons.
- `Kubeconfig.CheckedBindingFreshGrant`: needs the caller's binding name to differ from the broker's `pks:<user>-cluster-admin`. When they coincide, the written step returns True after deleting the fresh binding, and the corrected step returns False.
- `Kubeconfig.ClusterKubeconfig` uses the binding step as written, not `Kubeconfig.CreateClusterRoleBindingChecked`, because it models the view as it is.

## Findings

| source | as written | input that shows it | evidently intended | confidence | as-written member | corrected member |
|---|---|---|---|---|---|---|
| webapp/views.py:246-278 | each failed status check builds `Exception(...)` without `raise`, so creation continues after any failure | user search 200 with one result, organization 201 with guid "g-1", role assignment 422: the row is saved and the request succeeds, but the owner is not an organization manager | each failed step aborts creation and shows "Failed to create organization" on `name` (the statements after the handler's `raise`) | high, not executed | `Organizations.RoleFailureStillSaves` | `Organizations.OrganizationCreateChecked` |
| webapp/views.py:74 | the binding name replaces '@' with "__" and keeps any "__" already in the address, so two addresses can share a name; the list call then finds the other user's binding and creates none | `dev@ops__example.com` logs in first and gets `dev__ops__example.com-cluster-admin`; then `dev__ops@example.com` downloads a kubeconfig, the bind answers 200 and both calls succeed: the step returns True, but the only binding under that name grants `dev@ops__example.com` (the first address's domain `ops__example.com` is not a valid host name, so the input needs an identity provider that allows it) | True only when the caller holds a cluster-admin binding of its own | low, not executed | `Kubeconfig.CollidingUserGetsNoBinding` | `Kubeconfig.CreateClusterRoleBindingChecked` |

=== FILE: base.dfy ===
/** Generic building blocks shared by the portal model: an Option type and
    the few sequence operations the local store needs (key sets, distinct
    keys, first match, removal by key). */
module Base {

  datatype Option<+T> = None | Some(value: T)

  /** The set of keys of the elements of `s`. */
  function KeysOf<T, K(==)>(s: seq<T>, key: T -> K): (ks: set<K>)
    ensures forall x :: x in s ==> key(x) in ks
  {
    if s == [] then {} else {key(s[0])} + KeysOf(s[1..], key)
  }

  /** Every key in `KeysOf(s, key)` is the key of some position of `s`. */
  lemma {:induction false} KeysOfWitness<T, K>(s: seq<T>, key: T -> K, k: K)
    requires k in KeysOf(s, key)
    ensures exists i :: 0 <= i < |s| && key(s[i]) == k
  {
    if key(s[0]) != k {
      KeysOfWitness(s[1..], key, k);
      var i :| 0 <= i < |s[1..]| && key(s[1..][i]) == k;
      assert key(s[i + 1]) == k;
    }
  }

  /** No two elements of `s` share a key: the database's uniqueness constraint. */
  predicate Distinct<T, K(==)>(s: seq<T>, key: T -> K)
  {
    s == [] || (key(s[0]) !in KeysOf(s[1..], key) && Distinct(s[1..], key))
  }

  /** Distinctness stated on positions: two different positions hold different keys. */
  lemma {:induction false} DistinctAt<T, K>(s: seq<T>, key: T -> K, i: nat, j: nat)
    requires Distinct(s, key)
    requires i < j < |s|
    ensures key(s[i]) != key(s[j])
  {
    if i == 0 {
      assert s[j] in s[1..];
    } else {
      DistinctAt(s[1..], key, i - 1, j - 1);
    }
  }

  lemma {:induction false} KeysOfAppend<T, K>(a: seq<T>, b: seq<T>, key: T -> K)
    ensures KeysOf(a + b, key) == KeysOf(a, key) + KeysOf(b, key)
  {
    if a != [] {
      assert (a + b)[1..] == a[1..] + b;
      KeysOfAppend(a[1..], b, key);
    } else {
      assert a + b == b;
    }
  }

  /** Appending an element with a new key keeps the keys distinct. */
  lemma {:induction false} DistinctAppend<T, K>(s: seq<T>, x: T, key: T -> K)
    requires Distinct(s, key)
    requires key(x) !in KeysOf(s, key)
    ensures Distinct(s + [x], key)
  {
    if s == [] {
      assert s + [x] == [x];
    } else {
      assert (s + [x])[1..] == s[1..] + [x];
      DistinctAppend(s[1..], x, key);
      KeysOfAppend(s[1..], [x], key);
    }
  }

  /** Distinct keys identify elements: two elements with the same key are equal. */
  lemma DistinctKeyEq<T, K>(s: seq<T>, key: T -> K, a: T, b: T)
    requires Distinct(s, key)
    requires a in s && b in s && key(a) == key(b)
    ensures a == b
  {
    var i :| 0 <= i < |s| && s[i] == a;
    var j :| 0 <= j < |s| && s[j] == b;
    if i < j {
      DistinctAt(s, key, i, j);
    } else if j < i {
      DistinctAt(s, key, j, i);
    }
  }

  /** The element satisfying `p` with the least key, as `.first()` returns it
      from a query without an explicit ordering (which orders by primary key). */
  function LeastWhere<T>(s: seq<T>, p: T -> bool, key: T -> nat): (r: Option<T>)
    ensures r.None? <==> forall x :: x in s ==> !p(x)
    ensures r.Some? ==> r.value in s && p(r.value)
    ensures r.Some? ==> forall x :: x in s && p(x) ==> key(r.value) <= key(x)
  {
    if s == [] then None
    else
      var rest := LeastWhere(s[1..], p, key);
      assert forall x :: x in s[1..] ==> x in s;
      assert forall x :: x in s && x != s[0] ==> x in s[1..];
      if !p(s[0]) then rest
      else if rest.Some? && key(rest.value) < key(s[0]) then rest
      else Some(s[0])
  }

  /** With distinct keys the lookup depends only on which elements match, not
      on their order or on the elements that do not match. */
  lemma LeastWhereSameMatches<T>(s: seq<T>, t: seq<T>, p: T -> bool, key: T -> nat)
    requires Distinct(s, key)
    requires forall x :: x in t && p(x) ==> x in s
    requires forall x :: x in s && p(x) ==> x in t
    ensures LeastWhere(s, p, key) == LeastWhere(t, p, key)
  {
    var a, b := LeastWhere(s, p, key), LeastWhere(t, p, key);
    if a.Some? {
      assert b.Some?;
      DistinctKeyEq(s, key, a.value, b.value);
    }
  }

  /** Every element of `s` except those whose key is `k`, in order. */
  function DeleteWhere<T(!new), K(==)>(s: seq<T>, key: T -> K, k: K): (r: seq<T>)
    ensures forall x :: x in r <==> x in s && key(x) != k
    ensures KeysOf(r, key) == KeysOf(s, key) - {k}
    ensures Distinct(s, key) ==> Distinct(r, key)
  {
    if s == [] then []
    else
      var rest := DeleteWhere(s[1..], key, k);
      assert forall x :: x in s <==> x == s[0] || x in s[1..];
      if key(s[0]) == k then rest else [s[0]] + rest
  }

  /** Deleting by a key no matching element has leaves the lookup as it was. */
  lemma DeleteWhereKeepsLookup<T(!new)>(s: seq<T>, key: T -> nat, k: nat, p: T -> bool)
    requires Distinct(s, key)
    requires forall x :: x in s && key(x) == k ==> !p(x)
    ensures LeastWhere(DeleteWhere(s, key, k), p, key) == LeastWhere(s, p, key)
  {
    LeastWhereSameMatches(s, DeleteWhere(s, key, k), p, key);
  }
}

=== FILE: clusters.dfy ===
/** Cluster creation and deletion against the cluster broker
    (`ClusterCreate.form_valid` and `cluster_delete` in webapp/views.py).
    Each broker answer is a parameter; each operation returns the store
    after it, the broker requests it issued and what the user is shown. */
module Clusters {
  import opened Base
  import opened Records

  const MasterPort: int := 8443
  const PlanName: string := "small"
  const ProfileName: string := "oidc-config"

  /** The JSON document POSTed to the broker's cluster collection. */
  datatype Payload = Payload(
    name: string,
    masterHost: string,
    masterPort: int,
    planName: string,
    profileName: string)

  /** Broker requests the cluster views issue. */
  datatype BrokerCall =
    | PostCluster(payload: Payload)
    | GetCluster(name: string)
    | DeleteCluster(name: string)
    | BindAdmin(name: string)

  /** The master host a new cluster asks for: its name under the configured base domain. */
  function MasterHostFor(name: string, baseDomain: string): string
  {
    name + "." + baseDomain
  }

  function CreatePayload(name: string, baseDomain: string): (p: Payload)
    ensures p.name == name && p.masterHost == MasterHostFor(name, baseDomain)
    ensures p.masterPort == 8443 && p.planName == "small" && p.profileName == "oidc-config"
  {
    Payload(name, MasterHostFor(name, baseDomain), MasterPort, PlanName, ProfileName)
  }

  /** Distinct cluster names ask for distinct master hosts, so the unique
      name column also keeps the requested hosts apart. */
  lemma PayloadHostsDistinct(a: string, b: string, baseDomain: string)
    requires a != b
    ensures CreatePayload(a, baseDomain).masterHost != CreatePayload(b, baseDomain).masterHost
  {
    var sa, sb := MasterHostFor(a, baseDomain), MasterHostFor(b, baseDomain);
    if |a| == |b| {
      assert sa[..|a|] == a && sb[..|b|] == b;
    } else {
      assert |sa| != |sb|;
    }
  }

  datatype CreateReply = CreateReply(clusters: seq<Cluster>, calls: seq<BrokerCall>, error: Option<FieldError>)

  /** The row a 202 answer produces: owner and name from the request, the
      broker uuid, plan and mirrored status from the answer. The master IP
      is not part of the create answer and is left empty until a refresh. */
  function NewCluster(id: Id, name: string, user: User, b: ClusterBody): (c: Cluster)
    ensures c.id == id && c.name == name && c.owner == user.id
    ensures c.uuid == b.uuid && c.planName == b.planName && MirrorsStatus(c, b)
  {
    Cluster(id, name, user.id, b.uuid, b.planName, b.lastAction, b.lastActionState,
            b.lastActionDescription, b.masterHost, b.masterPort, b.workerInstances,
            "", b.k8sVersion)
  }

  /** Submitting the create form with a valid, not yet used `name`; `id` is
      the fresh primary key the new row would get. */
  function ClusterCreate(cs: seq<Cluster>, user: User, name: string, id: Id,
                         baseDomain: string, reply: ClusterReply): (r: CreateReply)
    requires ValidClusters(cs)
    requires name !in KeysOf(cs, ClusterName)
    requires id !in KeysOf(cs, ClusterId)
    ensures r.calls == [PostCluster(CreatePayload(name, baseDomain))]
    // 202: the earlier rows stay as they were and the row the answer describes follows them
    ensures reply.status == 202 ==>
      r.error.None? && r.clusters == cs + [NewCluster(id, name, user, reply.body)]
    ensures reply.status != 202 ==>
      r.clusters == cs && r.error == Some(FieldError("name", "Failed to create cluster"))
  {
    var calls := [PostCluster(CreatePayload(name, baseDomain))];
    if reply.status == 202 then
      CreateReply(cs + [NewCluster(id, name, user, reply.body)], calls, None)
    else
      CreateReply(cs, calls, Some(FieldError("name", "Failed to create cluster")))
  }

  /** Creation keeps the table's unique-key and unique-name constraints. */
  lemma ClusterCreateKeepsValid(cs: seq<Cluster>, user: User, name: string, id: Id,
                                baseDomain: string, reply: ClusterReply)
    requires ValidClusters(cs)
    requires name !in KeysOf(cs, ClusterName)
    requires id !in KeysOf(cs, ClusterId)
    ensures ValidClusters(ClusterCreate(cs, user, name, id, baseDomain, reply).clusters)
  {
    if reply.status == 202 {
      var c := NewCluster(id, name, user, reply.body);
      DistinctAppend(cs, c, ClusterId);
      DistinctAppend(cs, c, ClusterName);
    }
  }

  datatype DeleteReply = DeleteReply(clusters: seq<Cluster>, calls: seq<BrokerCall>, page: Page)

  /** Submitting the delete form for broker uuid `pk`; `status` is the
      broker's answer to the DELETE, if one is sent. The local row is never
      removed here: a 204 hands over to the refresh view, which removes the
      row once the broker no longer knows the cluster. */
  function ClusterDelete(cs: seq<Cluster>, user: User, pk: string, status: int): (r: DeleteReply)
    ensures r.clusters == cs
    ensures forall call :: call in r.calls ==>
      exists c :: c in cs && c.owner == user.id && c.uuid == pk && call == DeleteCluster(c.name)
    ensures (forall c :: c in cs ==> !(c.owner == user.id && c.uuid == pk)) ==>
      r.calls == [] && r.page == ErrorPage("Cluster " + pk + " not found or does not belong to user")
    // a hit sends exactly one DELETE, for the cluster the lookup found
    ensures FindCluster(cs, user, pk).Some? ==>
      && r.calls == [DeleteCluster(FindCluster(cs, user, pk).value.name)]
      && (status == 204 ==> r.page == Redirect("cluster_refresh"))
      && (status != 204 ==> r.page == ErrorPage("Error deleting Cluster " + pk))
  {
    match FindCluster(cs, user, pk)
    case None =>
      DeleteReply(cs, [], ErrorPage("Cluster " + pk + " not found or does not belong to user"))
    case Some(c) =>
      if status == 204 then DeleteReply(cs, [DeleteCluster(c.name)], Redirect("cluster_refresh"))
      else DeleteReply(cs, [DeleteCluster(c.name)], ErrorPage("Error deleting Cluster " + pk))
  }
}

=== FILE: kubeconfig.dfy ===
/** Kubeconfig download (`cluster_kubeconfig` and
    `create_cluster_role_binding` in webapp/views.py): before handing out a
    kubeconfig the portal makes sure the caller holds a cluster-admin
    ClusterRoleBinding inside the cluster, then removes the binding the
    broker created for its own admin credentials.

    The broker's answer to `GET /v1/clusters/{name}/binds/admin` and the
    outcomes of the Kubernetes API calls are parameters; the cluster's
    ClusterRoleBindings are a map from binding name to binding. */
module Kubeconfig {
  import opened Base
  import opened Text
  import opened Records
  import opened Clusters

  const AdminSuffix: string := "-cluster-admin"

  /** A ClusterRoleBinding: the ClusterRole it grants and its one subject. */
  datatype Binding = Binding(clusterRole: string, subjectKind: string, subjectName: string)

  type Bindings = map<string, Binding>

  /** Text without '@'. */
  predicate NoAt(s: string)
  {
    forall i :: 0 <= i < |s| ==> s[i] != '@'
  }

  /** Replaces every '@' of an email address with "__". */
  function EscapeAt(email: string): (r: string)
    ensures NoAt(r)
    ensures NoAt(email) ==> r == email
  {
    if email == [] then []
    else (if email[0] == '@' then "__" else [email[0]]) + EscapeAt(email[1..])
  }

  /** Escaping works piece by piece: the escape of a concatenation is the
      concatenation of the escapes. */
  lemma {:induction false} EscapeAtAppend(a: string, b: string)
    ensures EscapeAt(a + b) == EscapeAt(a) + EscapeAt(b)
  {
    if a == [] {
      assert a + b == b;
    } else {
      assert (a + b)[1..] == a[1..] + b;
      EscapeAtAppend(a[1..], b);
    }
  }

  /** Each '@' becomes "__" and the text around it is escaped on its own;
      with the identity on '@'-free text this pins `EscapeAt` down. */
  lemma EscapeAtReplaces(a: string, b: string)
    ensures EscapeAt(a + "@" + b) == EscapeAt(a) + "__" + EscapeAt(b)
  {
    EscapeAtAppend(a + "@", b);
    EscapeAtAppend(a, "@");
    assert EscapeAt("@") == "__" + EscapeAt([]);
  }

  /** The name of the caller's own binding. */
  function RoleBindingName(email: string): (n: string)
    ensures |n| >= |AdminSuffix| && n[|n| - |AdminSuffix|..] == AdminSuffix
    ensures NoAt(n)
  {
    EscapeAt(email) + AdminSuffix
  }

  /** For an address `local@domain` the binding is named
      `local__domain-cluster-admin`. */
  lemma RoleBindingNameOfAddress(local: string, domain: string)
    requires NoAt(local) && NoAt(domain)
    ensures RoleBindingName(local + "@" + domain) == local + "__" + domain + "-cluster-admin"
  {
    EscapeAtReplaces(local, domain);
  }

  lemma NoAtJoin(a: string, b: string)
    requires NoAt(a) && NoAt(b)
    ensures NoAt(a + "__" + b)
  {
    var j := a + "__" + b;
    forall i | 0 <= i < |j| ensures j[i] != '@' {
      if i < |a| { assert j[i] == a[i]; }
      else if i >= |a| + 2 { assert j[i] == b[i - |a| - 2]; }
    }
  }

  /** Two different addresses share one binding name: the escape does not
      tell a '@' from a "__" already in the address, so `a__b@c` and
      `a@b__c` (say `dev__ops@example.com` and `dev@ops__example.com`) both
      get `a__b__c-cluster-admin`. */
  lemma RoleBindingNamesCollide(a: string, b: string, c: string)
    requires NoAt(a) && NoAt(b) && NoAt(c)
    ensures a + "__" + b + "@" + c != a + "@" + b + "__" + c
    ensures RoleBindingName(a + "__" + b + "@" + c) == RoleBindingName(a + "@" + b + "__" + c)
  {
    var ab, bc := a + "__" + b, b + "__" + c;
    var x, y := ab + "@" + c, a + "@" + bc;
    assert x == a + "__" + b + "@" + c;
    assert y == a + "@" + b + "__" + c;
    assert x[|a|] == '_' && y[|a|] == '@';
    NoAtJoin(a, b);
    NoAtJoin(b, c);
    RoleBindingNameOfAddress(ab, c);
    RoleBindingNameOfAddress(a, bc);
    assert ab + "__" + c == a + "__" + bc;
  }

  /** The name of the binding the broker creates for the kubeconfig user it hands out. */
  function LegacyBindingName(kubeUser: string): string
  {
    "pks:" + kubeUser + AdminSuffix
  }

  /** The binding that makes `email` a cluster admin. */
  function AdminBinding(email: string): Binding
  {
    Binding("cluster-admin", "User", email)
  }

  /** List the bindings named after the caller and create one only when the
      list is empty. `apiOk` is false when the list or create call raised an
      API error, which the view logs and passes over. */
  function GrantAdmin(bindings: Bindings, email: string, apiOk: bool): (b: Bindings)
    // existing bindings are never changed or removed
    ensures forall n :: n in bindings ==> n in b && b[n] == bindings[n]
    // at most the caller's own binding is added, and only when it was missing
    ensures b.Keys <= bindings.Keys + {RoleBindingName(email)}
    ensures RoleBindingName(email) in bindings ==> b == bindings
    ensures apiOk ==> RoleBindingName(email) in b
    ensures RoleBindingName(email) !in bindings && RoleBindingName(email) in b ==>
      b[RoleBindingName(email)] == AdminBinding(email)
  {
    var name := RoleBindingName(email);
    if name in bindings || !apiOk then bindings
    else bindings[name := AdminBinding(email)]
  }

  /** Granting a second time creates nothing new. */
  lemma GrantIdempotent(bindings: Bindings, email: string, apiOk: bool, apiOk': bool)
    ensures var once := GrantAdmin(bindings, email, apiOk);
            apiOk ==> GrantAdmin(once, email, apiOk') == once
  {
  }

  /** The broker's answer to the admin bind request: its status and, on 200,
      the name of the user in the kubeconfig it returned. */
  datatype BindAnswer = BindAnswer(status: int, kubeUser: string)

  /** Outcomes of the Kubernetes calls made with that kubeconfig: whether the
      list/create pair and the delete of the broker's binding went through
      (a delete of a binding that does not exist fails as well). */
  datatype RbacAnswers = RbacAnswers(grantOk: bool, deleteOk: bool)

  datatype BindResult = BindResult(ok: bool, bindings: Bindings, calls: seq<BrokerCall>)

  function CreateClusterRoleBinding(email: string, cluster: Cluster, answer: BindAnswer,
                                    rbac: RbacAnswers, bindings: Bindings): (r: BindResult)
    ensures r.calls == [BindAdmin(cluster.name)]
    ensures r.ok <==>
      && answer.status == 200
      && rbac.deleteOk
      && LegacyBindingName(answer.kubeUser) in GrantAdmin(bindings, email, rbac.grantOk)
    ensures answer.status != 200 ==> r.bindings == bindings
    ensures answer.status == 200 ==>
      r.bindings == (if r.ok then GrantAdmin(bindings, email, rbac.grantOk) - {LegacyBindingName(answer.kubeUser)}
                     else GrantAdmin(bindings, email, rbac.grantOk))
  {
    if answer.status != 200 then BindResult(false, bindings, [BindAdmin(cluster.name)])
    else
      var granted := GrantAdmin(bindings, email, rbac.grantOk);
      var legacy := LegacyBindingName(answer.kubeUser);
      if legacy in granted && rbac.deleteOk then
        BindResult(true, granted - {legacy}, [BindAdmin(cluster.name)])
      else
        BindResult(false, granted, [BindAdmin(cluster.name)])
  }

  /** When the list and create calls went through, a successful binding step
      leaves the caller a cluster-admin binding in the cluster, unless the
      broker's own binding had the very same name. */
  lemma BindingGrantsAdmin(email: string, cluster: Cluster, answer: BindAnswer,
                           rbac: RbacAnswers, bindings: Bindings)
    requires rbac.grantOk
    requires RoleBindingName(email) != LegacyBindingName(answer.kubeUser)
    ensures var r := CreateClusterRoleBinding(email, cluster, answer, rbac, bindings);
            r.ok ==> RoleBindingName(email) in r.bindings
  {
  }

  /** When the first step's list and create calls went through, a second
      binding step after a successful one adds no binding. */
  lemma BindingIdempotent(email: string, cluster: Cluster, answer: BindAnswer, answer': BindAnswer,
                          rbac: RbacAnswers, rbac': RbacAnswers, bindings: Bindings)
    requires rbac.grantOk
    requires RoleBindingName(email) != LegacyBindingName(answer.kubeUser)
    ensures var first := CreateClusterRoleBinding(email, cluster, answer, rbac, bindings);
            var second := CreateClusterRoleBinding(email, cluster, answer', rbac', first.bindings);
            first.ok ==> second.bindings.Keys <= first.bindings.Keys
  {
  }

  /** When the caller's binding name is the broker's `pks:<user>-cluster-admin`
      (address `pks:u`, broker user `u`), the cleanup deletes the binding the
      step just created: the step succeeds and leaves the caller none. */
  lemma OwnBindingDeletedAsBrokers(u: string, cluster: Cluster, bindings: Bindings)
    requires NoAt(u)
    requires RoleBindingName("pks:" + u) !in bindings
    ensures var r := CreateClusterRoleBinding("pks:" + u, cluster, BindAnswer(200, u),
                                              RbacAnswers(true, true), bindings);
            r.ok && RoleBindingName("pks:" + u) !in r.bindings
  {
    assert NoAt("pks:" + u);
    assert RoleBindingName("pks:" + u) == LegacyBindingName(u);
  }

  /** A failed list or create call is logged and passed over: the step still
      succeeds although the caller has no binding. */
  lemma GrantFailureStillOk(email: string, cluster: Cluster, answer: BindAnswer,
                            rbac: RbacAnswers, bindings: Bindings)
    requires !rbac.grantOk && rbac.deleteOk && answer.status == 200
    requires LegacyBindingName(answer.kubeUser) in bindings
    requires RoleBindingName(email) !in bindings
    ensures var r := CreateClusterRoleBinding(email, cluster, answer, rbac, bindings);
            r.ok && RoleBindingName(email) !in r.bindings
  {
  }

  /** The second of two users whose addresses collide is told the binding
      step succeeded, while the only binding under its name grants the first
      user and no binding names the second. */
  lemma CollidingUserGetsNoBinding(a: string, b: string, c: string, kubeUser: string, cluster: Cluster)
    requires NoAt(a) && NoAt(b) && NoAt(c)
    requires LegacyBindingName(kubeUser) != RoleBindingName(a + "@" + b + "__" + c)
    ensures var first, second := a + "@" + b + "__" + c, a + "__" + b + "@" + c;
            var bindings := map[RoleBindingName(first) := AdminBinding(first),
                                LegacyBindingName(kubeUser) := AdminBinding(kubeUser)];
            var r := CreateClusterRoleBinding(second, cluster, BindAnswer(200, kubeUser),
                                              RbacAnswers(true, true), bindings);
            && r.ok
            && RoleBindingName(second) in r.bindings
            && r.bindings[RoleBindingName(second)] == AdminBinding(first)
            && forall n :: n in r.bindings ==> r.bindings[n].subjectName != second
  {
    RoleBindingNamesCollide(a, b, c);
  }

  /** The caller holds the cluster-admin binding named after them. */
  predicate HoldsAdmin(bindings: Bindings, email: string)
  {
    RoleBindingName(email) in bindings && bindings[RoleBindingName(email)] == AdminBinding(email)
  }

  /** The binding step as it is evidently meant to work: it reports success
      only when the binding named after the caller, after the cleanup, grants
      cluster-admin to the caller. The requests and the bindings are those
      of the step as written. */
  function CreateClusterRoleBindingChecked(email: string, cluster: Cluster, answer: BindAnswer,
                                           rbac: RbacAnswers, bindings: Bindings): (r: BindResult)
    ensures r.ok ==> HoldsAdmin(r.bindings, email)
    ensures r.calls == [BindAdmin(cluster.name)]
    ensures answer.status != 200 ==> !r.ok && r.bindings == bindings
  {
    var w := CreateClusterRoleBinding(email, cluster, answer, rbac, bindings);
    BindResult(w.ok && HoldsAdmin(w.bindings, email), w.bindings, w.calls)
  }

  /** The checked step refuses only what the written step would wrongly
      accept: wherever the caller really holds the binding both agree. */
  lemma CheckedBindingAgrees(email: string, cluster: Cluster, answer: BindAnswer,
                             rbac: RbacAnswers, bindings: Bindings)
    ensures var w := CreateClusterRoleBinding(email, cluster, answer, rbac, bindings);
            var c := CreateClusterRoleBindingChecked(email, cluster, answer, rbac, bindings);
            c.bindings == w.bindings && (c.ok <==> w.ok && HoldsAdmin(w.bindings, email))
  {
  }

  /** On a fresh grant the checked step succeeds exactly when the written one does. */
  lemma CheckedBindingFreshGrant(email: string, cluster: Cluster, answer: BindAnswer,
                                 rbac: RbacAnswers, bindings: Bindings)
    requires rbac.grantOk && RoleBindingName(email) !in bindings
    requires RoleBindingName(email) != LegacyBindingName(answer.kubeUser)
    ensures CreateClusterRoleBindingChecked(email, cluster, answer, rbac, bindings).ok
        <==> CreateClusterRoleBinding(email, cluster, answer, rbac, bindings).ok
  {
  }

  /** Deployment settings the kubeconfig template reads. */
  datatype Settings = Settings(caCert: string, oidcIssuerUrl: string, clusterClientId: string)

  /** The cluster entry: the CA data and the server at the master IP and port. */
  function ClusterEntry(s: Settings, ip: string, port: int, name: string): seq<string>
  {
    [ "apiVersion: v1",
      "clusters:",
      "- cluster:",
      "    certificate-authority-data: " + s.caCert,
      "    server: https://" + ip + ":" + Decimal(port),
      "  name: " + name ]
  }

  /** The one context, named after the cluster, and the current context. */
  function ContextEntry(name: string): seq<string>
  {
    [ "contexts:",
      "- context:",
      "    cluster: " + name,
      "    user: oidc",
      "  name: " + name,
      "current-context: " + name,
      "kind: Config" ]
  }

  /** The `oidc` user, which obtains its token through the kubectl oidc-login plugin. */
  function UserEntry(s: Settings): seq<string>
  {
    [ "users:",
      "- name: oidc",
      "  user:",
      "    exec:",
      "      apiVersion: client.authentication.k8s.io/v1beta1",
      "      args:",
      "      - oidc-login",
      "      - get-token",
      "      - --oidc-issuer-url=" + s.oidcIssuerUrl,
      "      - --oidc-client-id=" + s.clusterClientId,
      "      command: kubectl",
      "      env: null" ]
  }

  /** The kubeconfig document, line by line. */
  function KubeconfigLines(s: Settings, ip: string, port: int, name: string): (lines: seq<string>)
    ensures |lines| == 25 && lines[0] == "apiVersion: v1" && lines[|lines| - 1] == "      env: null"
  {
    ClusterEntry(s, ip, port, name) + ContextEntry(name) + UserEntry(s)
  }

  lemma ServerField(s: Settings, ip: string, port: int, name: string)
    ensures FieldValue(KubeconfigLines(s, ip, port, name), "    server: ")
         == Some("https://" + ip + ":" + Decimal(port))
  {
    var doc := ClusterEntry(s, ip, port, name);
    var key := "    server: ";
    forall j | 0 <= j < 4 ensures !StartsWith(doc[j], key) {
      if j < 3 { DiffersAt(doc[j], key, 0); } else { DiffersAt(doc[j], key, 4); }
    }
    assert doc[4] == key + ("https://" + ip + ":" + Decimal(port));
    FieldAt(doc, key, 4);
    FieldValueAppend(doc, ContextEntry(name), key);
    FieldValueAppend(doc + ContextEntry(name), UserEntry(s), key);
  }

  lemma ClusterNameField(s: Settings, ip: string, port: int, name: string)
    ensures FieldValue(KubeconfigLines(s, ip, port, name), "  name: ") == Some(name)
  {
    var doc := ClusterEntry(s, ip, port, name);
    var key := "  name: ";
    forall j | 0 <= j < 5 ensures !StartsWith(doc[j], key) {
      if j < 3 { DiffersAt(doc[j], key, 0); } else { DiffersAt(doc[j], key, 2); }
    }
    assert doc[5] == key + name;
    FieldAt(doc, key, 5);
    FieldValueAppend(doc, ContextEntry(name), key);
    FieldValueAppend(doc + ContextEntry(name), UserEntry(s), key);
  }

  lemma CurrentContextField(s: Settings, ip: string, port: int, name: string)
    ensures FieldValue(KubeconfigLines(s, ip, port, name), "current-context: ") == Some(name)
  {
    var key := "current-context: ";
    var head := ClusterEntry(s, ip, port, name);
    forall j | 0 <= j < |head| ensures !StartsWith(head[j], key) {
      if j == 1 { DiffersAt(head[j], key, 1); } else { DiffersAt(head[j], key, 0); }
    }
    var doc := ContextEntry(name);
    forall j | 0 <= j < 5 ensures !StartsWith(doc[j], key) {
      if j == 0 { DiffersAt(doc[j], key, 1); } else { DiffersAt(doc[j], key, 0); }
    }
    assert doc[5] == key + name;
    FieldAt(doc, key, 5);
    FieldValueAppend(head, doc, key);
    FieldValueAppend(head + doc, UserEntry(s), key);
  }

  /** What the download view answers: a kubeconfig or a redirect back to the
      cluster list. */
  datatype Download = Document(lines: seq<string>) | RedirectToClusters

  datatype KubeconfigReply = KubeconfigReply(download: Download, bindings: Bindings, calls: seq<BrokerCall>)

  function ClusterKubeconfig(cs: seq<Cluster>, user: User, pk: string, s: Settings,
                             answer: BindAnswer, rbac: RbacAnswers, bindings: Bindings): (r: KubeconfigReply)
    // nobody else's cluster is touched: no row, no broker call, no binding change
    ensures (forall c :: c in cs ==> !(c.owner == user.id && c.uuid == pk)) ==>
      r.download == RedirectToClusters && r.calls == [] && r.bindings == bindings
    // a kubeconfig is handed out only for an owned cluster whose binding step succeeded
    ensures r.download.Document? ==>
      exists c :: c in cs && c.owner == user.id && c.uuid == pk
        && CreateClusterRoleBinding(user.email, c, answer, rbac, bindings).ok
        && r.download.lines == KubeconfigLines(s, c.masterIp, c.masterPort, c.name)
    ensures FindCluster(cs, user, pk).Some? ==>
      (r.download.Document? <==> CreateClusterRoleBinding(user.email, FindCluster(cs, user, pk).value,
                                                            answer, rbac, bindings).ok)
    // on a hit the document is built from the row the lookup found
    ensures FindCluster(cs, user, pk).Some? && r.download.Document? ==>
      var c := FindCluster(cs, user, pk).value;
      r.download.lines == KubeconfigLines(s, c.masterIp, c.masterPort, c.name)
    // on a hit the binding step's requests and resulting bindings are the reply's
    ensures FindCluster(cs, user, pk).Some? ==>
      var b := CreateClusterRoleBinding(user.email, FindCluster(cs, user, pk).value, answer, rbac, bindings);
      r.bindings == b.bindings && r.calls == b.calls
  {
    match FindCluster(cs, user, pk)
    case None => KubeconfigReply(RedirectToClusters, bindings, [])
    case Some(c) =>
      var b := CreateClusterRoleBinding(user.email, c, answer, rbac, bindings);
      if b.ok then KubeconfigReply(Document(KubeconfigLines(s, c.masterIp, c.masterPort, c.name)), b.bindings, b.calls)
      else KubeconfigReply(RedirectToClusters, b.bindings, b.calls)
  }
}

=== FILE: organizations.dfy ===
/** Organization creation and deletion on the application platform
    (`OrganizationCreate.form_valid` and `organization_delete` in
    webapp/views.py). The platform's answers are parameters.

    Creation as written checks every status code but never raises: each
    check builds an exception object and drops it. The only thing that
    aborts it is a create-organization answer without a `guid`, which
    raises a lookup error the handler re-raises. `OrganizationCreate`
    models that behaviour; `OrganizationCreateChecked` is the creation the
    status checks evidently intend. */
module Organizations {
  import opened Base
  import opened Records

  /** Platform requests the organization views issue. */
  datatype PlatformCall =
    | FindUser(email: string)
    | CreateUser(email: string)
    | CreateOrganization(name: string)
    | AssignManager(email: string, guid: string)
    | DeleteOrganization(guid: string)

  /** The answer to the user search: its status and `totalResults`. */
  datatype UserQuery = UserQuery(status: int, totalResults: int)

  /** The answer to the create-organization request: its status and the
      `guid` field of its body, when the body has one. */
  datatype OrgAnswer = OrgAnswer(status: int, guid: Option<string>)

  /** How a create request ends: the row is saved, the request fails with an
      unhandled exception, or the form is shown again with an error. */
  datatype CreateOutcome = Saved | Raised | Rejected(error: FieldError)

  datatype OrgCreateReply = OrgCreateReply(orgs: seq<Organization>, calls: seq<PlatformCall>, outcome: CreateOutcome)

  /** The platform user for the caller is created only when the search
      succeeded and found nobody. */
  function UserCalls(email: string, query: UserQuery): (r: seq<PlatformCall>)
    ensures 1 <= |r| <= 2 && r[0] == FindUser(email)
    ensures CreateUser(email) in r <==> query.status == 200 && query.totalResults == 0
    ensures |r| == 2 ==> r[1] == CreateUser(email)
  {
    [FindUser(email)] + (if query.status == 200 && query.totalResults == 0 then [CreateUser(email)] else [])
  }

  /** Creation as written. `userStatus` and `roleStatus` answer the
      create-user and assign-role requests; `id` is the new row's fresh key. */
  function OrganizationCreate(os: seq<Organization>, user: User, name: string, id: Id,
                              query: UserQuery, userStatus: int, org: OrgAnswer,
                              roleStatus: int): (r: OrgCreateReply)
    requires Distinct(os, OrganizationId)
    requires id !in KeysOf(os, OrganizationId)
    ensures Distinct(r.orgs, OrganizationId)
    // exactly these requests: the user search (and creation), the organization, and with a guid the role
    ensures |r.calls| == |UserCalls(user.email, query)| + (if org.guid.Some? then 2 else 1)
    ensures |UserCalls(user.email, query)| < |r.calls|
            && r.calls[..|UserCalls(user.email, query)|] == UserCalls(user.email, query)
            && r.calls[|UserCalls(user.email, query)|] == CreateOrganization(name)
    ensures org.guid.Some? ==>
      && r.outcome == Saved
      && r.orgs == os + [Organization(id, name, user.id, org.guid.value)]
      && r.calls[|r.calls| - 1] == AssignManager(user.email, org.guid.value)
    ensures org.guid.None? ==>
      r.outcome == Raised && r.orgs == os
      && forall call :: call in r.calls ==> !call.AssignManager?
  {
    var calls := UserCalls(user.email, query) + [CreateOrganization(name)];
    match org.guid
    case None =>
      OrgCreateReply(os, calls, Raised)
    case Some(guid) =>
      var o := Organization(id, name, user.id, guid);
      DistinctAppend(os, o, OrganizationId);
      OrgCreateReply(os + [o], calls + [AssignManager(user.email, guid)], Saved)
  }

  /** As written, no status code decides anything: two requests whose
      create-organization answers carry the same `guid` end the same way,
      whatever the user search, user creation, organization and role
      statuses were. */
  lemma StatusesIgnored(os: seq<Organization>, user: User, name: string, id: Id,
                        q1: UserQuery, q2: UserQuery, u1: int, u2: int,
                        s1: int, s2: int, g: Option<string>, r1: int, r2: int)
    requires Distinct(os, OrganizationId)
    requires id !in KeysOf(os, OrganizationId)
    ensures var a := OrganizationCreate(os, user, name, id, q1, u1, OrgAnswer(s1, g), r1);
            var b := OrganizationCreate(os, user, name, id, q2, u2, OrgAnswer(s2, g), r2);
            a.orgs == b.orgs && a.outcome == b.outcome
  {
  }

  /** A concrete request showing the defect: the platform refuses the
      organization-manager role (422), yet the organization row is saved and
      the request succeeds; the owner is not a manager of the organization. */
  lemma RoleFailureStillSaves()
    ensures var user := User(1, "dev@example.com");
            var r := OrganizationCreate([], user, "team", 7, UserQuery(200, 1), 0,
                                        OrgAnswer(201, Some("g-1")), 422);
            r.outcome == Saved && r.orgs == [Organization(7, "team", user.id, "g-1")]
  {
  }

  const CreateFailed: FieldError := FieldError("name", "Failed to create organization")

  /** Creation as the status checks intend it: each failed step stops the
      request, which shows the form again with an error on `name`. */
  function OrganizationCreateChecked(os: seq<Organization>, user: User, name: string, id: Id,
                                     query: UserQuery, userStatus: int, org: OrgAnswer,
                                     roleStatus: int): (r: OrgCreateReply)
    requires Distinct(os, OrganizationId)
    requires id !in KeysOf(os, OrganizationId)
    ensures Distinct(r.orgs, OrganizationId)
    ensures r.outcome == Saved || r.outcome == Rejected(CreateFailed)
    ensures r.outcome != Saved ==> r.orgs == os
    // saved exactly when every step succeeded, and then the owner was made a manager
    ensures r.outcome == Saved <==>
      && query.status == 200
      && (query.totalResults == 0 ==> userStatus == 201)
      && org.status == 201 && org.guid.Some?
      && roleStatus == 201
    ensures r.outcome == Saved ==>
      && r.orgs == os + [Organization(id, name, user.id, org.guid.value)]
      && AssignManager(user.email, org.guid.value) in r.calls
    // nothing is requested after the first failure
    ensures query.status != 200 ==> r.calls == [FindUser(user.email)]
    ensures org.guid.None? ==> forall call :: call in r.calls ==> !call.AssignManager?
  {
    var found := [FindUser(user.email)];
    if query.status != 200 then OrgCreateReply(os, found, Rejected(CreateFailed))
    else
      var userCalls := UserCalls(user.email, query);
      if query.totalResults == 0 && userStatus != 201 then OrgCreateReply(os, userCalls, Rejected(CreateFailed))
      else
        var orgCalls := userCalls + [CreateOrganization(name)];
        if org.status != 201 || org.guid.None? then OrgCreateReply(os, orgCalls, Rejected(CreateFailed))
        else
          var calls := orgCalls + [AssignManager(user.email, org.guid.value)];
          if roleStatus != 201 then OrgCreateReply(os, calls, Rejected(CreateFailed))
          else
            var o := Organization(id, name, user.id, org.guid.value);
            DistinctAppend(os, o, OrganizationId);
            OrgCreateReply(os + [o], calls, Saved)
  }

  /** Where both versions save a row they save the same row: the checked
      version only refuses requests the written one lets through. */
  lemma CheckedRefinesWritten(os: seq<Organization>, user: User, name: string, id: Id,
                              query: UserQuery, userStatus: int, org: OrgAnswer, roleStatus: int)
    requires Distinct(os, OrganizationId)
    requires id !in KeysOf(os, OrganizationId)
    ensures var checked := OrganizationCreateChecked(os, user, name, id, query, userStatus, org, roleStatus);
            var written := OrganizationCreate(os, user, name, id, query, userStatus, org, roleStatus);
            checked.outcome == Saved ==> written.outcome == Saved && written.orgs == checked.orgs
  {
  }

  datatype OrgDeleteReply = OrgDeleteReply(orgs: seq<Organization>, calls: seq<PlatformCall>, page: Page)

  /** Submitting the delete form for organization GUID `pk`; `status` is the
      platform's answer to the DELETE, if one is sent. */
  function OrganizationDelete(os: seq<Organization>, user: User, pk: string, status: int): (r: OrgDeleteReply)
    // the only request ever sent deletes an organization the caller owns
    ensures forall call :: call in r.calls ==>
      exists o :: o in os && o.owner == user.id && o.uuid == pk && call == DeleteOrganization(o.uuid)
    ensures (forall o :: o in os ==> !(o.owner == user.id && o.uuid == pk)) ==>
      && r.calls == [] && r.orgs == os
      && r.page == ErrorPage("Organization " + pk + " not found or does not belong to user")
    // a hit sends exactly one DELETE, for the organization's GUID
    ensures FindOrganization(os, user, pk).Some? ==> r.calls == [DeleteOrganization(pk)]
    ensures FindOrganization(os, user, pk).Some? && status != 202 ==>
      r.orgs == os && r.page == ErrorPage("Error deleting Organization " + pk)
    // 202: exactly the row the lookup found is gone, every other row stays
    ensures FindOrganization(os, user, pk).Some? && status == 202 ==>
      && r.page == Redirect("organization")
      && forall x :: x in r.orgs <==> x in os && x.id != FindOrganization(os, user, pk).value.id
    ensures Distinct(os, OrganizationId) ==> Distinct(r.orgs, OrganizationId)
  {
    match FindOrganization(os, user, pk)
    case None =>
      OrgDeleteReply(os, [], ErrorPage("Organization " + pk + " not found or does not belong to user"))
    case Some(o) =>
      if status == 202 then
        OrgDeleteReply(DeleteWhere(os, OrganizationId, o.id), [DeleteOrganization(o.uuid)], Redirect("organization"))
      else
        OrgDeleteReply(os, [DeleteOrganization(o.uuid)], ErrorPage("Error deleting Organization " + pk))
  }

  /** Deleting one organization leaves every other lookup as it was: any
      other (user, GUID) pair finds the same row before and after. */
  lemma OrganizationDeleteKeepsOthers(os: seq<Organization>, user: User, pk: string, status: int,
                                      other: User, otherPk: string)
    requires Distinct(os, OrganizationId)
    requires other.id != user.id || otherPk != pk
    ensures FindOrganization(OrganizationDelete(os, user, pk, status).orgs, other, otherPk)
         == FindOrganization(os, other, otherPk)
  {
    var found := FindOrganization(os, user, pk);
    if found.Some? && status == 202 {
      var o := found.value;
      forall x | x in os && x.id == o.id ensures !(x.owner == other.id && x.uuid == otherPk) {
        DistinctKeyEq(os, OrganizationId, x, o);
      }
      DeleteWhereKeepsLookup(os, OrganizationId, o.id, (x: Organization) => x.owner == other.id && x.uuid == otherPk);
    }
  }
}

=== FILE: records.dfy ===
/** The portal's local store: the Cluster and Organization rows it keeps as a
    cache of upstream state, and the owner-scoped lookups every view uses. */
module Records {
  import opened Base

  /** An authenticated portal user: the auth table's primary key and the
      current email address. Rows refer to their owner by the key alone. */
  datatype User = User(id: nat, email: string)

  /** The local primary key of a row (a random UUID in the database). */
  type Id = nat

  /** One row of the Cluster table. `uuid` is the identifier the cluster
      broker assigned; the remaining fields mirror the broker's last answer. */
  datatype Cluster = Cluster(
    id: Id,
    name: string,
    owner: nat,   // the owner's user primary key
    uuid: string,
    planName: string,
    lastAction: string,
    lastActionState: string,
    lastActionDescription: string,
    masterHost: string,
    masterPort: int,
    workerInstances: int,
    masterIp: string,
    k8sVersion: string)

  /** One row of the Organization table; `owner` is the owner's user primary
      key and `uuid` is the platform's org GUID. */
  datatype Organization = Organization(id: Id, name: string, owner: nat, uuid: string)

  /** The decoded body of a broker cluster document (create or get). */
  datatype ClusterBody = ClusterBody(
    uuid: string,
    planName: string,
    lastAction: string,
    lastActionState: string,
    lastActionDescription: string,
    masterHost: string,
    masterPort: int,
    workerInstances: int,
    masterIps: seq<string>,
    k8sVersion: string)

  /** An upstream answer: the HTTP status code and the decoded body. */
  datatype ClusterReply = ClusterReply(status: int, body: ClusterBody)

  /** A form error attached to one field of the submitted form. */
  datatype FieldError = FieldError(field: string, message: string)

  /** Where a view sends the user: a redirect to a named view, or the error page. */
  datatype Page = Redirect(view: string) | ErrorPage(message: string)

  function ClusterId(c: Cluster): Id { c.id }
  function ClusterName(c: Cluster): string { c.name }
  function OrganizationId(o: Organization): Id { o.id }

  /** The constraints the database enforces on the Cluster table: unique
      primary key and unique name. */
  predicate ValidClusters(cs: seq<Cluster>)
  {
    Distinct(cs, ClusterId) && Distinct(cs, ClusterName)
  }

  /** The status fields a cluster row copies from a broker document. */
  predicate MirrorsStatus(c: Cluster, b: ClusterBody)
  {
    && c.lastAction == b.lastAction
    && c.lastActionState == b.lastActionState
    && c.lastActionDescription == b.lastActionDescription
    && c.masterHost == b.masterHost
    && c.masterPort == b.masterPort
    && c.workerInstances == b.workerInstances
    && c.k8sVersion == b.k8sVersion
  }

  /** The caller's cluster whose broker uuid is `pk`, if any: the lookup
      filtered by owner and uuid, taking the first row by primary key. */
  function FindCluster(cs: seq<Cluster>, user: User, pk: string): (r: Option<Cluster>)
    ensures r.Some? ==> r.value in cs && r.value.owner == user.id && r.value.uuid == pk
    ensures r.Some? ==> forall c :: c in cs && c.owner == user.id && c.uuid == pk ==> r.value.id <= c.id
    ensures r.None? <==> forall c :: c in cs ==> !(c.owner == user.id && c.uuid == pk)
  {
    LeastWhere(cs, (c: Cluster) => c.owner == user.id && c.uuid == pk, ClusterId)
  }

  /** The caller's organization whose GUID is `pk`, if any, first by primary key. */
  function FindOrganization(os: seq<Organization>, user: User, pk: string): (r: Option<Organization>)
    ensures r.Some? ==> r.value in os && r.value.owner == user.id && r.value.uuid == pk
    ensures r.Some? ==> forall o :: o in os && o.owner == user.id && o.uuid == pk ==> r.value.id <= o.id
    ensures r.None? <==> forall o :: o in os ==> !(o.owner == user.id && o.uuid == pk)
  {
    LeastWhere(os, (o: Organization) => o.owner == user.id && o.uuid == pk, OrganizationId)
  }

  /** The lookups match the owner by primary key, so a user whose email
      changed still finds the rows created under the old address. */
  lemma LookupsIgnoreEmail(cs: seq<Cluster>, os: seq<Organization>, id: nat, e1: string, e2: string, pk: string)
    ensures FindCluster(cs, User(id, e1), pk) == FindCluster(cs, User(id, e2), pk)
    ensures FindOrganization(os, User(id, e1), pk) == FindOrganization(os, User(id, e2), pk)
    ensures OwnedBy(cs, User(id, e1)) == OwnedBy(cs, User(id, e2))
  {
  }

  /** The caller's clusters: the queryset a view iterates, here in store order. */
  function OwnedBy(cs: seq<Cluster>, user: User): (r: seq<Cluster>)
    ensures forall c :: c in r <==> c in cs && c.owner == user.id
    ensures KeysOf(r, ClusterId) <= KeysOf(cs, ClusterId)
    ensures Distinct(cs, ClusterId) ==> Distinct(r, ClusterId)
  {
    if cs == [] then []
    else
      var rest := OwnedBy(cs[1..], user);
      assert forall c :: c in cs <==> c == cs[0] || c in cs[1..];
      if cs[0].owner == user.id then [cs[0]] + rest else rest
  }

  /** `save()` of a row that already exists: the row with the same primary
      key is replaced, every other row is kept. */
  function SaveById(cs: seq<Cluster>, c: Cluster): (r: seq<Cluster>)
    ensures |r| == |cs|
    ensures forall i :: 0 <= i < |cs| ==> r[i] == (if cs[i].id == c.id then c else cs[i])
  {
    if cs == [] then []
    else [if cs[0].id == c.id then c else cs[0]] + SaveById(cs[1..], c)
  }
}

=== FILE: refresh.dfy ===
/** Reconciliation of the caller's cluster rows against the broker
    (`cluster_refresh` in webapp/views.py). The broker's answer to
    `GET /v1/clusters/{name}` is the parameter `upstream`.

    `Refresh` is the reference definition, one row at a time: a 200 answer
    overwrites the mirrored fields, a 404 answer removes the row, any other
    answer keeps it, and rows of other users are never looked at.
    `RefreshLoop` follows the view's own loop over the queryset snapshot,
    saving and deleting rows by primary key, and is proved to compute the
    same store. */
module Reconcile {
  import opened Base
  import opened Records
  import opened Clusters

  /** The row after a 200 answer: the status fields, the master port and
      host and the first master IP come from the answer; identity, owner,
      broker uuid and plan are kept. */
  function Mirror(c: Cluster, b: ClusterBody): (m: Cluster)
    requires |b.masterIps| > 0
    ensures m.id == c.id && m.name == c.name && m.owner == c.owner
    ensures m.uuid == c.uuid && m.planName == c.planName
    ensures MirrorsStatus(m, b) && m.masterIp == b.masterIps[0]
  {
    c.(lastAction := b.lastAction,
       lastActionState := b.lastActionState,
       lastActionDescription := b.lastActionDescription,
       masterHost := b.masterHost,
       masterPort := b.masterPort,
       workerInstances := b.workerInstances,
       masterIp := b.masterIps[0],
       k8sVersion := b.k8sVersion)
  }

  /** Mirroring the same answer twice changes nothing more. */
  lemma MirrorIdempotent(c: Cluster, b: ClusterBody)
    requires |b.masterIps| > 0
    ensures Mirror(Mirror(c, b), b) == Mirror(c, b)
  {
  }

  /** Every 200 answer about one of the caller's clusters lists at least one
      master IP; the view reads the first one without checking. */
  predicate Answerable(cs: seq<Cluster>, user: User, upstream: string -> ClusterReply)
  {
    forall c :: c in cs && c.owner == user.id && upstream(c.name).status == 200 ==>
      |upstream(c.name).body.masterIps| > 0
  }

  /** The fate of one row given the broker's answer about it: `None` when
      the row is deleted. */
  function Reconciled(c: Cluster, reply: ClusterReply): Option<Cluster>
    requires reply.status == 200 ==> |reply.body.masterIps| > 0
  {
    if reply.status == 200 then Some(Mirror(c, reply.body))
    else if reply.status == 404 then None
    else Some(c)
  }

  /** The rows a refresh leaves in place of row `c`: none or one. */
  function Kept(c: Cluster, user: User, upstream: string -> ClusterReply): (k: seq<Cluster>)
    requires c.owner == user.id && upstream(c.name).status == 200 ==> |upstream(c.name).body.masterIps| > 0
    ensures |k| <= 1
  {
    if c.owner != user.id then [c]
    else
      match Reconciled(c, upstream(c.name))
      case None => []
      case Some(m) => [m]
  }

  function Refresh(cs: seq<Cluster>, user: User, upstream: string -> ClusterReply): seq<Cluster>
    requires Answerable(cs, user, upstream)
  {
    if cs == [] then []
    else
      assert forall x :: x in cs[1..] ==> x in cs;
      var k := Kept(cs[0], user, upstream);
      var rest := Refresh(cs[1..], user, upstream);
      if k == [] then rest else k + rest
  }

  /** A refresh never adds a primary key or a name, and it keeps the
      table's unique-key and unique-name constraints. */
  lemma {:induction false} RefreshKeys(cs: seq<Cluster>, user: User, upstream: string -> ClusterReply)
    requires Answerable(cs, user, upstream)
    ensures var r := Refresh(cs, user, upstream);
            && KeysOf(r, ClusterId) <= KeysOf(cs, ClusterId)
            && KeysOf(r, ClusterName) <= KeysOf(cs, ClusterName)
            && (ValidClusters(cs) ==> ValidClusters(r))
  {
    if cs != [] {
      assert forall x :: x in cs[1..] ==> x in cs;
      var k := Kept(cs[0], user, upstream);
      var rest := Refresh(cs[1..], user, upstream);
      RefreshKeys(cs[1..], user, upstream);
      if k != [] {
        assert (k + rest)[1..] == rest;
      }
    }
  }

  /** What a refresh does to one row `c` of the store: another user's row
      is kept as it is; for the caller's row a 200 answer keeps it with the
      broker's fields and any status other than 200 and 404 keeps it
      unchanged. */
  lemma {:induction false} RefreshFate(cs: seq<Cluster>, user: User, upstream: string -> ClusterReply, c: Cluster)
    requires Answerable(cs, user, upstream)
    requires c in cs
    ensures c.owner != user.id ==> c in Refresh(cs, user, upstream)
    ensures c.owner == user.id && upstream(c.name).status == 200 ==>
      Mirror(c, upstream(c.name).body) in Refresh(cs, user, upstream)
    ensures c.owner == user.id && upstream(c.name).status != 200 && upstream(c.name).status != 404 ==>
      c in Refresh(cs, user, upstream)
  {
    assert forall x :: x in cs[1..] ==> x in cs;
    if cs[0] != c {
      assert c in cs[1..];
      RefreshFate(cs[1..], user, upstream, c);
    }
  }

  /** A 404 answer about one of the caller's rows leaves no row with its
      primary key. */
  lemma {:induction false} RefreshRemoves(cs: seq<Cluster>, user: User, upstream: string -> ClusterReply, c: Cluster)
    requires Answerable(cs, user, upstream)
    requires Distinct(cs, ClusterId)
    requires c in cs && c.owner == user.id && upstream(c.name).status == 404
    ensures c.id !in KeysOf(Refresh(cs, user, upstream), ClusterId)
  {
    assert forall x :: x in cs[1..] ==> x in cs;
    var rest := Refresh(cs[1..], user, upstream);
    if cs[0] != c {
      assert c in cs[1..];
      RefreshRemoves(cs[1..], user, upstream, c);
      var k := Kept(cs[0], user, upstream);
      assert cs[0].id != c.id;
      KeysOfAppend(k, rest, ClusterId);
    } else {
      RefreshKeys(cs[1..], user, upstream);
    }
  }

  /** A refresh adds nothing: every row after it is a row that was kept as
      it was, or the mirror of one of the caller's rows answered with 200. */
  lemma {:induction false} RefreshOrigin(cs: seq<Cluster>, user: User, upstream: string -> ClusterReply, x: Cluster)
    requires Answerable(cs, user, upstream)
    requires x in Refresh(cs, user, upstream)
    ensures
      || (x in cs && x.owner != user.id)
      || (x in cs && upstream(x.name).status != 200 && upstream(x.name).status != 404)
      || (exists c :: c in cs && c.owner == user.id && upstream(c.name).status == 200
                      && x == Mirror(c, upstream(c.name).body))
  {
    var h := cs[0];
    var rest := Refresh(cs[1..], user, upstream);
    assert forall y :: y in cs[1..] ==> y in cs;
    if x in rest {
      RefreshOrigin(cs[1..], user, upstream, x);
    }
  }

  /** Refreshing twice against the same broker answers is the same as
      refreshing once. */
  lemma {:induction false} RefreshIdempotent(cs: seq<Cluster>, user: User, upstream: string -> ClusterReply)
    requires Answerable(cs, user, upstream)
    ensures var r := Refresh(cs, user, upstream);
            Answerable(r, user, upstream) && Refresh(r, user, upstream) == r
  {
    if cs != [] {
      var c := cs[0];
      var rest := Refresh(cs[1..], user, upstream);
      RefreshIdempotent(cs[1..], user, upstream);
      var r := Refresh(cs, user, upstream);
      if c.owner == user.id && upstream(c.name).status == 200 {
        var m := Mirror(c, upstream(c.name).body);
        MirrorIdempotent(c, upstream(c.name).body);
        assert r == [m] + rest;
        assert r[1..] == rest;
      } else if c.owner != user.id || upstream(c.name).status != 404 {
        assert r == [c] + rest;
        assert r[1..] == rest;
      }
    }
  }

  /** The store part-way through the view's loop: only the caller's rows
      whose primary key is in `done` have been reconciled. */
  function RefreshOnly(cs: seq<Cluster>, user: User, upstream: string -> ClusterReply, done: set<Id>): (r: seq<Cluster>)
    requires Answerable(cs, user, upstream)
    ensures KeysOf(r, ClusterId) <= KeysOf(cs, ClusterId)
  {
    if cs == [] then []
    else
      var c := cs[0];
      var rest := RefreshOnly(cs[1..], user, upstream, done);
      assert forall x :: x in cs[1..] ==> x in cs;
      if c.owner != user.id || c.id !in done then [c] + rest
      else
        match Reconciled(c, upstream(c.name))
        case None => rest
        case Some(m) => [m] + rest
  }

  /** What one iteration of the loop does to the store for the snapshot row `c`. */
  function Apply(r: seq<Cluster>, c: Cluster, reply: ClusterReply): seq<Cluster>
    requires reply.status == 200 ==> |reply.body.masterIps| > 0
  {
    if reply.status == 200 then SaveById(r, Mirror(c, reply.body))
    else if reply.status == 404 then DeleteWhere(r, ClusterId, c.id)
    else r
  }

  lemma ApplyAbsent(r: seq<Cluster>, c: Cluster, reply: ClusterReply)
    requires reply.status == 200 ==> |reply.body.masterIps| > 0
    requires c.id !in KeysOf(r, ClusterId)
    ensures Apply(r, c, reply) == r
  {
  }

  lemma ApplyCons(x: Cluster, r: seq<Cluster>, c: Cluster, reply: ClusterReply)
    requires reply.status == 200 ==> |reply.body.masterIps| > 0
    requires x.id != c.id
    ensures Apply([x] + r, c, reply) == [x] + Apply(r, c, reply)
  {
  }

  lemma {:induction false} RefreshOnlyIgnoresAbsent(cs: seq<Cluster>, user: User,
      upstream: string -> ClusterReply, done: set<Id>, id: Id)
    requires Answerable(cs, user, upstream)
    requires id !in KeysOf(cs, ClusterId)
    ensures RefreshOnly(cs, user, upstream, done + {id}) == RefreshOnly(cs, user, upstream, done)
  {
    if cs != [] {
      RefreshOnlyIgnoresAbsent(cs[1..], user, upstream, done, id);
    }
  }

  /** One iteration of the loop reconciles exactly the row it visits. */
  lemma {:induction false} StepOnce(cs: seq<Cluster>, user: User, upstream: string -> ClusterReply,
                                    done: set<Id>, c: Cluster)
    requires Answerable(cs, user, upstream)
    requires Distinct(cs, ClusterId)
    requires c in cs && c.owner == user.id && c.id !in done
    ensures Apply(RefreshOnly(cs, user, upstream, done), c, upstream(c.name))
         == RefreshOnly(cs, user, upstream, done + {c.id})
  {
    var h := cs[0];
    var reply := upstream(c.name);
    var rest := RefreshOnly(cs[1..], user, upstream, done);
    var rest' := RefreshOnly(cs[1..], user, upstream, done + {c.id});
    if h == c {
      RefreshOnlyIgnoresAbsent(cs[1..], user, upstream, done, c.id);
      ApplyAbsent(rest, c, reply);
      assert rest' == rest;
      if reply.status == 200 {
        assert ([c] + rest)[1..] == rest;
      } else if reply.status == 404 {
        assert ([c] + rest)[1..] == rest;
      }
    } else {
      assert c in cs[1..];
      assert h.id != c.id;
      StepOnce(cs[1..], user, upstream, done, c);
      if h.owner != user.id || h.id !in done {
        ApplyCons(h, rest, c, reply);
      } else if upstream(h.name).status == 200 {
        ApplyCons(Mirror(h, upstream(h.name).body), rest, c, reply);
      } else if upstream(h.name).status != 404 {
        ApplyCons(h, rest, c, reply);
      }
    }
  }

  lemma {:induction false} RefreshOnlyNothing(cs: seq<Cluster>, user: User, upstream: string -> ClusterReply)
    requires Answerable(cs, user, upstream)
    ensures RefreshOnly(cs, user, upstream, {}) == cs
  {
    if cs != [] {
      RefreshOnlyNothing(cs[1..], user, upstream);
    }
  }

  lemma {:induction false} RefreshOnlyAll(cs: seq<Cluster>, user: User, upstream: string -> ClusterReply, done: set<Id>)
    requires Answerable(cs, user, upstream)
    requires forall c :: c in cs && c.owner == user.id ==> c.id in done
    ensures RefreshOnly(cs, user, upstream, done) == Refresh(cs, user, upstream)
  {
    if cs != [] {
      assert forall x :: x in cs[1..] ==> x in cs;
      RefreshOnlyAll(cs[1..], user, upstream, done);
    }
  }

  /** The snapshot position `k` holds a row not visited before it. */
  lemma SnapshotFresh(mine: seq<Cluster>, k: nat)
    requires forall i, j :: 0 <= i < j < |mine| ==> mine[i].id != mine[j].id
    requires k < |mine|
    ensures mine[k].id !in KeysOf(mine[..k], ClusterId)
  {
    if mine[k].id in KeysOf(mine[..k], ClusterId) {
      KeysOfWitness(mine[..k], ClusterId, mine[k].id);
    }
  }

  lemma SnapshotNext(mine: seq<Cluster>, k: nat)
    requires k < |mine|
    ensures KeysOf(mine[..k + 1], ClusterId) == KeysOf(mine[..k], ClusterId) + {mine[k].id}
  {
    assert mine[..k + 1] == mine[..k] + [mine[k]];
    KeysOfAppend(mine[..k], [mine[k]], ClusterId);
  }

  /** The view's loop: iterate over a snapshot of the caller's rows; for
      each, a 200 answer saves the mirrored row, a 404 answer deletes the
      row by primary key, any other answer is logged and skipped. */
  method RefreshLoop(cs: seq<Cluster>, user: User, upstream: string -> ClusterReply, mine: seq<Cluster>)
      returns (r: seq<Cluster>, calls: seq<BrokerCall>)
    requires Distinct(cs, ClusterId)
    requires Answerable(cs, user, upstream)
    // the snapshot holds each row the caller owns once, in the order the database returns them
    requires forall i, j :: 0 <= i < j < |mine| ==> mine[i].id != mine[j].id
    requires forall c :: c in mine <==> c in cs && c.owner == user.id
    ensures r == Refresh(cs, user, upstream)
    // one GET per row of the snapshot, in snapshot order (see `RefreshAsksOwned`)
    ensures |calls| == |mine|
    ensures forall i :: 0 <= i < |calls| ==> calls[i] == GetCluster(mine[i].name)
  {
    r := cs;
    // the loop asks the broker about each row of the snapshot in turn
    calls := seq(|mine|, i requires 0 <= i < |mine| => GetCluster(mine[i].name));
    ghost var done: set<Id> := {};
    RefreshOnlyNothing(cs, user, upstream);
    var k := 0;
    while k < |mine|
      invariant 0 <= k <= |mine|
      invariant done == KeysOf(mine[..k], ClusterId)
      invariant r == RefreshOnly(cs, user, upstream, done)
    {
      var c := mine[k];
      var reply := upstream(c.name);
      assert c in mine;
      SnapshotFresh(mine, k);
      SnapshotNext(mine, k);
      StepOnce(cs, user, upstream, done, c);
      if reply.status == 200 {
        r := SaveById(r, Mirror(c, reply.body));
      } else if reply.status == 404 {
        r := DeleteWhere(r, ClusterId, c.id);
      }
      done := done + {c.id};
      k := k + 1;
    }
    assert mine[..k] == mine;
    assert forall c :: c in cs && c.owner == user.id ==> c.id in done;
    RefreshOnlyAll(cs, user, upstream, done);
  }

  /** The requests of `RefreshLoop` ask the broker about the caller's
      clusters only, and about each of them. */
  lemma RefreshAsksOwned(cs: seq<Cluster>, user: User, mine: seq<Cluster>, calls: seq<BrokerCall>)
    requires forall c :: c in mine <==> c in cs && c.owner == user.id
    requires |calls| == |mine|
    requires forall i :: 0 <= i < |calls| ==> calls[i] == GetCluster(mine[i].name)
    ensures forall call :: call in calls ==>
      exists c :: c in cs && c.owner == user.id && call == GetCluster(c.name)
    ensures forall c :: c in cs && c.owner == user.id ==> GetCluster(c.name) in calls
  {
    forall call | call in calls
      ensures exists c :: c in cs && c.owner == user.id && call == GetCluster(c.name)
    {
      var i :| 0 <= i < |calls| && calls[i] == call;
      assert mine[i] in mine;
    }
    forall c | c in cs && c.owner == user.id ensures GetCluster(c.name) in calls {
      var i :| 0 <= i < |mine| && mine[i] == c;
      assert calls[i] == GetCluster(c.name);
    }
  }

  /** A delete the broker accepted leaves the row in place and hands over
      to the refresh, which removes the row once the broker answers 404 for
      the cluster's name. */
  lemma DeleteThenRefresh(cs: seq<Cluster>, user: User, pk: string, status: int,
                          upstream: string -> ClusterReply, c: Cluster)
    requires Distinct(cs, ClusterId)
    requires Answerable(cs, user, upstream)
    requires FindCluster(cs, user, pk) == Some(c)
    requires status == 204 && upstream(c.name).status == 404
    ensures var d := ClusterDelete(cs, user, pk, status);
            && d.clusters == cs
            && d.page == Redirect("cluster_refresh")
            && c.id in KeysOf(d.clusters, ClusterId)
            && c.id !in KeysOf(Refresh(d.clusters, user, upstream), ClusterId)
  {
    RefreshRemoves(cs, user, upstream, c);
  }
}

=== FILE: text.dfy ===
/** String formatting used by the portal: Python's decimal rendering of an
    integer (as `"{}".format(n)` produces it) with its inverse, and lookup of
    a `key: value` line in a rendered document. */
module Text {
  import opened Base

  predicate IsDigit(ch: char) { '0' <= ch <= '9' }

  function DigitChar(d: nat): (ch: char)
    requires d < 10
    ensures IsDigit(ch) && ch as int - '0' as int == d
  {
    ('0' as int + d) as char
  }

  /** Decimal digits of `n`, most significant first, without leading zeros. */
  function Digits(n: nat): (s: string)
    ensures |s| > 0
    ensures forall i :: 0 <= i < |s| ==> IsDigit(s[i])
    ensures s[0] == '0' ==> n == 0
    decreases n
  {
    if n < 10 then [DigitChar(n)] else Digits(n / 10) + [DigitChar(n % 10)]
  }

  /** `str(n)` for a Python int: a '-' sign only for negative numbers. */
  function Decimal(n: int): string
  {
    if n < 0 then "-" + Digits(-n) else Digits(n)
  }

  /** The value of a string of decimal digits. */
  function DigitsValue(s: string): nat
    requires forall i :: 0 <= i < |s| ==> IsDigit(s[i])
  {
    if s == [] then 0
    else
      assert IsDigit(s[|s| - 1]);
      10 * DigitsValue(s[..|s| - 1]) + (s[|s| - 1] as int - '0' as int)
  }

  /** Reads back what `Decimal` writes; anything else is rejected. */
  function ParseDecimal(s: string): Option<int>
  {
    if |s| > 1 && s[0] == '-' && forall i :: 1 <= i < |s| ==> IsDigit(s[i]) then
      var v: int := DigitsValue(s[1..]);
      Some(-v)
    else if |s| > 0 && forall i :: 0 <= i < |s| ==> IsDigit(s[i]) then
      Some(DigitsValue(s))
    else None
  }

  lemma {:induction false} DigitsRoundTrip(n: nat)
    ensures DigitsValue(Digits(n)) == n
  {
    if n >= 10 {
      var s := Digits(n / 10) + [DigitChar(n % 10)];
      assert s[..|s| - 1] == Digits(n / 10);
      DigitsRoundTrip(n / 10);
    }
  }

  /** Every integer, and so every port number, is read back from its rendering. */
  lemma DecimalRoundTrip(n: int)
    ensures ParseDecimal(Decimal(n)) == Some(n)
  {
    if n < 0 {
      var s := Decimal(n);
      assert s[1..] == Digits(-n);
      DigitsRoundTrip(-n);
    } else {
      DigitsRoundTrip(n);
    }
  }

  /** Different integers render differently. */
  lemma DecimalInjective(a: int, b: int)
    requires Decimal(a) == Decimal(b)
    ensures a == b
  {
    DecimalRoundTrip(a);
    DecimalRoundTrip(b);
  }

  predicate StartsWith(line: string, prefix: string)
  {
    |prefix| <= |line| && line[..|prefix|] == prefix
  }

  /** The value after `key` on the first line that starts with `key`. */
  function FieldValue(lines: seq<string>, key: string): (r: Option<string>)
    ensures r.Some? ==> exists i :: 0 <= i < |lines| && lines[i] == key + r.value
    ensures r.None? <==> forall i :: 0 <= i < |lines| ==> !StartsWith(lines[i], key)
  {
    if lines == [] then None
    else if StartsWith(lines[0], key) then
      assert lines[0] == key + lines[0][|key|..];
      Some(lines[0][|key|..])
    else
      var r := FieldValue(lines[1..], key);
      assert forall i :: 1 <= i < |lines| ==> lines[i] == lines[1..][i - 1];
      r
  }

  /** A line that differs from `key` at position `i`, or is too short to
      reach it, does not start with `key`. */
  lemma DiffersAt(line: string, key: string, i: nat)
    requires i < |key|
    requires i >= |line| || line[i] != key[i]
    ensures !StartsWith(line, key)
  {
  }

  /** The field is read from line `i` when no earlier line starts with the key. */
  lemma {:induction false} FieldAt(lines: seq<string>, key: string, i: nat)
    requires i < |lines| && StartsWith(lines[i], key)
    requires forall j :: 0 <= j < i ==> !StartsWith(lines[j], key)
    ensures FieldValue(lines, key) == Some(lines[i][|key|..])
  {
    if i > 0 {
      assert forall j :: 0 <= j < i - 1 ==> lines[1..][j] == lines[j + 1];
      FieldAt(lines[1..], key, i - 1);
    }
  }

  /** A field is looked up in the first part of a document before the second. */
  lemma {:induction false} FieldValueAppend(a: seq<string>, b: seq<string>, key: string)
    ensures FieldValue(a + b, key) == (if FieldValue(a, key).Some? then FieldValue(a, key) else FieldValue(b, key))
  {
    if a == [] {
      assert a + b == b;
    } else {
      assert (a + b)[0] == a[0];
      assert (a + b)[1..] == a[1..] + b;
      FieldValueAppend(a[1..], b, key);
    }
  }
}
